=== FILE: README.md ===
# Demo portfolio page: server store and page controller, in Dafny

This project models the two pieces of logic in a small Flask demo site.

- **The server's in-memory store** (`app.py`) holds a table of projects and a table of jokes. It has these handlers:
  - look up a project by id, and update its progress with clamping to [0, 100];
  - count projects by status;
  - pick a joke, from the whole table or from one category, with a 404 when the category has none;
  - list the distinct joke categories.
- **The page controller** (`static/js/app.js`) is modelled as a page state. Each handler is a total function from one state to the next. The state covers:
  - the theme attribute;
  - the single notification slot;
  - the project grid;
  - the category menu;
  - the joke text elements;
  - the typing timers.

  Typing a joke is modelled with explicit timers. Each tick of `typeText` is a piece of pending work waiting on a handle. Firing the handle runs that work, and clearing a handle drops it.

Modules:

| module | file | models |
|---|---|---|
| `Wrappers` | wrappers.dfy | `Option` for "nothing found / no value" |
| `Text` | text.dfy | ASCII `toUpperCase` and `toLowerCase`, capitalising a category, `String.replace` with a one-character pattern |
| `Store` | store.dfy | `app.py`: the tables, `project_detail`, `get_stats`, the joke handlers |
| `Typing` | typing.dfy | `typeText`: one character per tick, one recorded handle per tick |
| `Page` | page.dfy | page state, notifications, theme, project cards, joke URL, category menu |
| `JokeSession` | session.dfy | `getRandomJoke` and `typeJoke` as a timer-driven session, with its invariant |

`random.choice` is modelled by an explicit index `pick` (the pick is `candidates[pick % |candidates|]`). A fetch result is a parameter: `None` stands for a network error, a non-ok status or an unreadable body. Timer handles come from a counter in the page state.

## Model

| member | source | states |
|---|---|---|
| `Store.Clamp` | app.py:97 | The stored value is in [0, 100]. It equals the request's value when that is already in range, 0 below it and 100 above it. |
| `Store.FindProject` | app.py:90 | Returns the index of the first project with the id, or None exactly when no project has it. |
| `Store.ProjectDetail` | app.py:88-100 | An unknown id gives the "Project not found" 404 and leaves the table unchanged. Otherwise the reply is the first record with that id, as `FindProject` finds it. A POST with `progress` stores the clamped value in that one record, and no other field or record changes. A GET, or a POST without `progress`, changes nothing. The range invariant is preserved. |
| `Store.ServeAllKeepsInvariant` | app.py:94-98 | Any series of GET and POST requests keeps every progress in [0, 100]. The length, ids, names and statuses never change. |
| `Store.ServedTablesInRange` | app.py:9-14 | The seed table is in range, so every table reached from it by requests is in range. |
| `Store.PostThenGet` | app.py:94-100 | A GET after a POST of progress p to an existing id reads back `Clamp(p)` on the same record. |
| `Store.CountsDisjoint` | app.py:104-106 | The counts of two different statuses together never exceed the number of projects. |
| `Store.CountAll` | app.py:105 | A status count equals the number of projects exactly when every project has that status. |
| `Store.SumProgressBounds` | app.py:107 | With progress in range, the progress sum lies in [0, 100·N], so the average lies in [0, 100]. |
| `Store.GetStats` | app.py:102-114 | An empty table gives a 500 from the division by zero. Otherwise: total is N, completed and active are the status counts, completed + active ≤ total, and the sum is bounded when progress is in range. |
| `Store.JokesInCategory` | app.py:123 | The filter keeps only jokes of the category, all taken from the table, and keeps every joke of that category. |
| `Store.GetJokeByCategory` | app.py:121-128 | A joke is returned exactly when some joke has the category, and it is one of those jokes. Otherwise the reply is the "No jokes found" 404. |
| `Store.GetRandomJoke` | app.py:116-119 | A non-empty table gives one of its jokes. An empty table gives a 500 (`random.choice` raises). |
| `Store.EveryJokeCanBeDrawn` | app.py:116-119 | Every joke of the table is one `random.choice` can return: the pick at its position draws it. |
| `Store.GetJokeCategories` | app.py:130-133 | No category is listed twice, and a category is listed exactly when some joke has it. |
| `Store.CategoriesMatchTable` | app.py:132 | The listed categories form the set of categories in the table, and the list has one entry per distinct category. |
| `Store.ListedCategoryHasJoke` | app.py:121-133 | Asking for any listed category never draws the 404, and returns a joke of that category. |
| `Text.ToLower` | static/js/app.js:60 | Length is kept, and each character is lower-cased on its own, ASCII letters only. |
| `Text.Capitalize` | static/js/app.js:303 | Length is kept, only the first character is upper-cased, the rest is unchanged, and "" stays "". |
| `Text.ReplaceFirst` | static/js/app.js:60 | Length is kept, the first occurrence of the pattern character becomes the replacement, and every other position is unchanged. |
| `Page.StatusClass` | static/js/app.js:60 | The badge class is `status-` followed by the status, of the same length. The first space, if any, becomes `-`, and every other character is lower-cased. |
| `Page.StatusClassSingleToken` | static/js/app.js:60 | A status with at most one space gives a class with no space left in it. |
| `Page.StatusClassKeepsSecondSpace` | static/js/app.js:60 | A second space in the status survives into the class. |
| `Page.RenderGrid` | static/js/app.js:29-71 | A failed fetch leaves the grid as it was. Otherwise the grid holds one card per project, in order, each built by `Page.CreateCard` (`createProjectCard`). Card i shows that project's name, status, status class and progress, with delay index i. |
| `Page.LoadProjects` | static/js/app.js:34-40 | Emptying the grid and appending the cards one at a time yields the same cards as `Page.RenderGrid`, which is the grid the page events use. |
| `Typing.TypedPrefix` | static/js/app.js:383-388 | After k ≤ \|text\| ticks, the element shows its old text followed by exactly the first k characters of the text. Exactly k new handles have been recorded, and the run is still typing. |
| `Typing.TypingFinishes` | static/js/app.js:378-394 | The tick after the last character records no handle. It ends the run with the whole text shown and `typing` swapped for `typing-done`, after exactly \|text\| appends. |
| `Typing.TypeStep` | static/js/app.js:383-394 | A call of `type` appends exactly when characters remain. It then appends the next character, keeps the classes and hands out the given handle. Otherwise the text is kept and `typing` is swapped for `typing-done`. |
| `Typing.Advance` | static/js/app.js:383-394 | An append records exactly one new handle, takes it from the counter and moves one position on. The finishing tick records none and resolves the run. A resolved run no longer changes. |
| `Page.ShowNotification` | static/js/app.js:210-235 | The first existing banner is removed, the others are kept in order, and the new one is appended last. From at most one banner, the result is exactly the new banner. Nothing else on the page changes. |
| `Page.ExpireNotification` | static/js/app.js:238-240 | The auto-removal drops that banner and only removes: the remaining banners are the old ones in their old order, every other banner survives, and expiring the lone banner empties the slot. When no banner has that id the page is unchanged. Nothing else is touched. |
| `Page.SingleSlot` | static/js/app.js:212-215 | From at most one banner, any series of shows and expiries leaves at most one. After a show, the only banner is that show's message and severity. |
| `Page.ToggleTheme` | static/js/app.js:117-123 | The attribute becomes `light` exactly when it was not `light`, and becomes absent exactly when it was `light`. |
| `Page.ChangeTheme` | static/js/app.js:113-123 | `light` becomes absent and any other value becomes `light`. The new last banner is the next node, a success banner naming the theme now in force. The oldest existing banner is removed and the others are kept in order. Nothing else changes. |
| `Page.ChangeThemeTwice` | static/js/app.js:117-123 | Two toggles restore the attribute exactly when it started absent or `light`. Any other starting value ends up absent. |
| `Page.RouteOf` | app.py:121 | A path routed to the category handler is the category prefix followed by a non-empty category. |
| `Page.JokeUrl` | static/js/app.js:320 | An empty selection fetches `/api/joke`. Any other selection fetches `/api/jokes/` followed by exactly the selection. |
| `Page.JokeUrlReachesHandler` | static/js/app.js:320 | A non-empty selection that is a routable path segment fetches the category route for exactly that category. An empty selection fetches the random-joke route. |
| `Page.JokeUrlInjective` | static/js/app.js:320 | Different selections give different URL strings passed to `fetch`. After the browser parses them, two selections can still request the same path. |
| `Page.CategoryOptions` | static/js/app.js:300-305 | There is one option per fetched category, in order. Its value is the category and its caption the capitalised category. |
| `Page.SelectCategory` | static/js/app.js:317-318 | Choosing a menu value makes it the value `getRandomJoke` reads, and changes nothing else. |
| `Page.InitCategoryMenu` | static/js/app.js:299-305 | The options already in the menu are kept, and one option per fetched category is appended after them, in order, with the category as value and its capitalised form as caption. If the menu was empty, the first appended category becomes the selection, as a browser selects the first option added to an empty select. Otherwise the selection is kept. Nothing else changes. |
| `Page.MenuOptionHasJoke` | static/js/app.js:300-320 | Once chosen, every option built from the server's category list (when the category is a routable path segment) makes `getRandomJoke` fetch that category's route. The server answers it with a joke of that category, never the 404. |
| `Page.SeedCategoriesRoutable` | app.py:17-78 | Every category of the seeded joke table is a routable path segment, so the previous row applies to all of them. |
| `Page.CategoryLabel` | static/js/app.js:369 | The label is `Category: ` followed by the capitalised category. `JokeSession.TraceKeepsJokeText` shows that, with the pause recorded, the label on the page is always empty or this label for the current joke. |
| `JokeSession.CancelTyping` | static/js/app.js:330-332 | The recorded list is emptied. A cleared timer never fires, and every unrecorded timer stays pending unchanged. |
| `JokeSession.ClearJoke` | static/js/app.js:350-357 | Setup, punchline and category label are emptied and the typing classes removed. Nothing else changes. |
| `JokeSession.RunTask` | static/js/app.js:359-369 | One tick of the joke session. The current joke, theme, grid, menu and selection stay. Setup and punchline only grow, by at most one character in total. The counter never goes back. Pending timers below the counter stay pending, and new ones take fresh handles. Recorded handles stay recorded. |
| `JokeSession.RunTaskIsAdvance` | static/js/app.js:360-366 | A typing task on the page changes its element as `Typing.Advance` does. While characters remain, the page's recorded handles and counter move exactly as the run's, and the next tick is scheduled under the new handle. |
| `JokeSession.NewJoke` | static/js/app.js:327-360 | A fetched joke becomes current. Punchline and label are empty, the setup shows at most its first character, and theme, grid, menu and selection are kept. |
| `JokeSession.FireWith` | static/js/app.js:383-388 | Firing a cleared or already fired timer changes nothing. The current joke is kept. When every handle came from the counter, the fired handle is no longer pending afterwards. |
| `JokeSession.OnJokeResponseWith` | static/js/app.js:321-341 | A failed fetch shows the "Failed to load joke" error banner through the single slot. The new banner is the next node and is last, the oldest existing banner is removed, the others are kept in order, and nothing else changes. A fetched joke becomes current with empty punchline and label. |
| `JokeSession.NewJokeStartsClean` | static/js/app.js:328-360 | After a new joke arrives: it is current, and no previously recorded timer can fire. Every recorded handle is new. Punchline and label are empty, and the setup shows at most its first character. |
| `JokeSession.AppendCoherent` | static/js/app.js:384-388 | A call of `type` that appends keeps the session invariant. The element still shows a prefix of the current joke's text, and the follow-up tick is the one pending, recorded timer. |
| `JokeSession.FinishCoherent` | static/js/app.js:360-369 | The call of `type` that ends a run keeps the session invariant. After the setup, the pause is the one pending timer. After the punchline nothing is pending, and the label names the current joke's category. |
| `JokeSession.RunTaskCoherent` | static/js/app.js:359-366 | Running the one pending typing task keeps the session invariant. |
| `JokeSession.FireCoherent` | static/js/app.js:383-392 | Firing any timer keeps the session invariant. |
| `JokeSession.NewJokeCoherent` | static/js/app.js:327-335 | A new joke cancels all pending typing work and re-establishes the invariant for itself. |
| `JokeSession.ApplyKeepsCoherent` | static/js/app.js:315-369 | With the pause recorded, every page event keeps the session invariant. |
| `JokeSession.TraceKeepsJokeText` | static/js/app.js:330-369 | With the pause recorded, after any series of events the joke elements show only prefixes of the current joke's setup and punchline. The category label is empty or names the current joke's category. |
| `JokeSession.RunTaskSingleSlot` | static/js/app.js:337 | Running a typing task shows at most one banner, so the slot still holds at most one. |
| `JokeSession.TraceKeepsSingleSlot` | static/js/app.js:337-340 | Every page event keeps the notification slot to at most one banner. |
| `JokeSession.RunTaskIssued` | static/js/app.js:387-388 | A typing task only records and schedules handles taken from the counter. |
| `JokeSession.TraceKeepsHandlesIssued` | static/js/app.js:387-388 | On every reachable page, all recorded and pending handles come from the counter. |
| `JokeSession.PauseEscapesCancel` | static/js/app.js:363 | As written, a second joke arriving during the first joke's pause does not stop the first punchline. The timers fire in the order they were set. "b" is typed under the joke "x"/"y", and when it finishes the label reads "Category: Pun" and "New joke loaded!" is shown while "x"/"y" (category food) is current. |
| `JokeSession.RecordedPauseIsCancelled` | static/js/app.js:363 | With the pause recorded, the same events leave the second joke's elements untouched by the first. The punchline shows the start of the second joke's own punchline, and no label or banner is shown. |

## Findings

| source | as written | input that shows it | evidently intended | confidence | as-written member | corrected member |
|---|---|---|---|---|---|---|
| static/js/app.js:363 | The 1000 ms pause between setup and punchline uses a `setTimeout` whose handle is never pushed onto `typingTimeouts`. Clearing the recorded timers (lines 331-332) therefore misses it. | Joke a/b arrives and its setup finishes. Joke x/y arrives during the pause. The old pause fires within 50 ms of that arrival and types "b" into the punchline while x/y is current. The remaining ticks fire in the order they were set. When that run finishes, the label reads "Category: Pun" and "New joke loaded!" is shown while x/y is current. The punchline later ends as "by", and only when it finishes does the label become "Category: Food". | Starting a new joke cancels every pending piece of the previous typing sequence, so no text from an older joke appears after a newer one starts. | medium, not executed | `JokeSession.PauseEscapesCancel` | `JokeSession.TraceKeepsJokeText` |

The corrected behaviour records the pause handle like every other typing timer. `JokeSession.RunEvents` with `recordPause` true runs it, and so do `JokeSession.Fire` and the all-traces invariants. With `recordPause` false, `RunEvents` keeps the source's behaviour, which `JokeSession.PauseEscapesCancel` runs.

## Left out

- Flask routing, `jsonify`, `render_template` and server start-up (app.py:80-86, app.py:135-136). This is framework plumbing. `Page.RouteOf` only records which joke handler a path reaches.
- Page.RouteOf, Page.JokeUrlReachesHandler, Page.MenuOptionHasJoke, Page.JokeUrlInjective: routing and distinctness are stated for the raw fetch string. For example, "a#x" and "a#y" differ as strings but both request `/api/jokes/a`. The browser's URL parser is not modelled. It drops `?…` and `#…`, turns `\` into `/`, resolves `.` and `..` segments, strips surrounding whitespace and percent-encodes other characters, and Flask decodes the escapes again. The two lemmas therefore promise the route only for a selection that is a `Page.RoutableSegment`: non-empty, not a dot segment, printable ASCII with no space and none of `/ \ ? # %`. For such a segment the parser changes nothing. `Page.SeedCategoriesRoutable` shows that every seeded category is one.
- Store.GetStats: the float average and `round(..., 1)` (app.py:107, app.py:113) are floating point. The model keeps the integer sum they are computed from, with its bounds.
- Store.ProjectDetail, Store.Clamp: the model takes only integer `progress` values (app.py:95-97). A JSON float is clamped the same way and stored as a float, and a JSON boolean passes through `min`/`max` unchanged and is stored as a boolean; neither is modelled. A non-numeric value (a string or null) makes the comparison raise `TypeError`, and so does a body for which `request.get_json()` returns None; Flask answers those with a 500, which is not modelled either. A POST body is either "has an integer `progress`" or "has none".
- Page.InitCategoryMenu: the page template is not part of this model, so its initial menu is unknown. `JokeSession.InitialPage` starts from an empty menu with an empty selection, where the first fetched category becomes selected. If the template has a default option instead, `Page.InitCategoryMenu` keeps that selection, but no trace lemma starts from such a page.
- Store.GetJokeCategories: Python set order is not fixed. The model lists categories in order of first appearance, and the contract speaks only of contents and uniqueness.
- Text.Capitalize, Text.ToLower, Page.StatusClass: `toUpperCase` and `toLowerCase` are modelled for ASCII letters only. Full Unicode case mapping, which can change the length, is not modelled.
- `fetch`, `async`/`await`, microtask ordering and `requestAnimationFrame` are left out. A fetch result is a parameter, and a promise continuation runs in the same step as the event that resolves it.
- `loadStats` and `animateNumbers`/`animateNumber` (static/js/app.js:12-26, 83-110) are clock-driven, floating-point interpolation into the DOM.
- `animateProgressBars` and `animateProgress` (static/js/app.js:74-80, 133-142) are CSS style writes. The same goes for the body transition timer in `changeTheme` (static/js/app.js:125-129).
- The particle effects (`createParticles`, `createJokeParticles`, `createReactionParticles`) use `Math.random`. The 500 ms particle timer after a joke is also left out. All of these are cosmetic.
- Scroll parallax, the intersection observer, click effects and injected CSS are cosmetic (static/js/app.js:180-207, 245-267, 483-511).
- Keyboard shortcuts (static/js/app.js:270-287) are left out as dispatch. Ctrl+T (`changeTheme`) and Ctrl+J (`getRandomJoke`) reach handlers that are modelled as the `ThemeToggled` and `JokeArrived` events. Ctrl+P (`createParticles`) and Ctrl+A (`animateProgress`) reach cosmetic handlers that are left out, as listed above.
- `reactToJoke` (static/js/app.js:401-426) depends on the browser's implicit global `event`. Its visible effect is one banner, which `Page.ShowNotification` covers.
- Page.LoadProjects: the card's HTML template (no escaping of name or status) is not modelled. Neither is the formatting of the animation delay `index * 0.1` as a float string; the model keeps the index.
- Inline banner styling (static/js/app.js:221-233) maps severity to a colour only. The emoji prefixes of banner messages are also left out.
- Page.ExpireNotification models the removal at the end of the 3 s + 300 ms timers, but not the slide-out animation in between.
- Typing.TypeStep, Typing.Advance, Typing.TypedPrefix, Typing.TypingFinishes: a string is a sequence of Unicode scalar values here. JavaScript's `length` and `charAt` count UTF-16 code units, so for text outside the Basic Multilingual Plane `charAt` appends half a surrogate pair per tick where the model appends a whole character, and the source needs more ticks than the model's |text|. The seeded jokes are ASCII.
- The `console.error` logging in the catch blocks (static/js/app.js:24, 47, 310, 339) is output only and is left out. The visible effect of the catch at line 339 is the error banner, which `JokeSession.OnJokeResponseWith` models.
- Timer delays and firing order are not modelled. Any pending timer may fire at any step, so the invariants proved over all event sequences cover more schedules than the browser can produce. The as-written trace of the finding fires its timers in an order the browser does produce.

=== FILE: page.dfy ===
/** The browser page as the script sees it (`static/js/app.js`): the theme
    attribute, the notification slot, the project grid, the category menu, the
    joke text elements and the typing timers. Every handler is a total
    function from one page state to the next. */
module Page {
  import opened Wrappers
  import Text
  import opened Store
  import opened Typing

  /** The notification types: `info`, `success`, `error`. */
  datatype Severity = Info | Success | Failure

  /** One banner node; `id` stands for the identity of the DOM node. */
  datatype Notification = Notification(id: nat, message: string, severity: Severity)

  /** One project card: the title, the class and text of the status badge, the
      progress it displays, and its entry delay in tenths of a second. */
  datatype Card = Card(title: string, statusClass: string, statusText: string, progress: int, delayTenths: nat)

  /** One `<option>` of the category menu. */
  datatype CategoryOption = CategoryOption(value: string, caption: string)

  /** Which joke element a typing run writes to. */
  datatype Part = SetupPart | PunchlinePart

  /** Work waiting on a timer: the next tick of a typing run of `joke` on `part`
      with `pos` characters typed, or the end of the pause between setup and
      punchline. */
  datatype Task = TypeChar(joke: Joke, part: Part, pos: nat) | Pause(joke: Joke)

  datatype Page = Page(
    theme: Option<string>,              // `document.body.dataset.theme`
    notifications: seq<Notification>,   // `.notification` nodes, in document order
    nextNotification: nat,
    grid: seq<Card>,                    // children of `projectsGrid`
    options: seq<CategoryOption>,       // children of the `jokeCategory` select
    selected: string,                   // the select's current value
    currentJoke: Option<Joke>,
    setup: Element,
    punchline: Element,
    categoryLabel: string,              // text of `jokeCategoryDisplay`
    typingTimeouts: seq<Handle>,
    scheduled: map<Handle, Task>,       // timers the browser has yet to fire
    nextHandle: Handle)

  // ------------------------------------------------------------ notifications

  /** `showNotification`: the first existing banner, if any, is removed, then the
      new one is appended at the end. */
  function ShowNotification(p: Page, message: string, severity: Severity): (q: Page)
    ensures |q.notifications| == if |p.notifications| == 0 then 1 else |p.notifications|
    ensures q.notifications[|q.notifications| - 1] == Notification(p.nextNotification, message, severity)
    ensures |p.notifications| <= 1 ==> q.notifications == [Notification(p.nextNotification, message, severity)]
    ensures |p.notifications| > 0 ==> q.notifications[..|q.notifications| - 1] == p.notifications[1..]
    ensures q.(notifications := p.notifications, nextNotification := p.nextNotification) == p
  {
    var kept := if |p.notifications| > 0 then p.notifications[1..] else [];
    p.(notifications := kept + [Notification(p.nextNotification, message, severity)],
       nextNotification := p.nextNotification + 1)
  }

  /** `r` is `ns` with some entries dropped and the rest kept in order. */
  predicate Embeds(r: seq<Notification>, ns: seq<Notification>)
    decreases |ns|
  {
    if r == [] then true
    else if ns == [] then false
    else if r[0] == ns[0] then Embeds(r[1..], ns[1..])
    else Embeds(r, ns[1..])
  }

  /** The banners other than node `id`, in order. */
  function WithoutNode(ns: seq<Notification>, id: nat): (r: seq<Notification>)
    ensures |r| <= |ns|
    ensures Embeds(r, ns)
    ensures forall i :: 0 <= i < |r| ==> r[i].id != id && r[i] in ns
    ensures forall i :: 0 <= i < |ns| && ns[i].id != id ==> ns[i] in r
    ensures (forall i :: 0 <= i < |ns| ==> ns[i].id != id) ==> r == ns
  {
    if ns == [] then []
    else
      var rest := WithoutNode(ns[1..], id);
      assert ns == [ns[0]] + ns[1..];
      if ns[0].id == id then
        assert rest == [] || rest[0] != ns[0];
        rest
      else
        assert ([ns[0]] + rest)[1..] == rest;
        [ns[0]] + rest
  }

  /** The auto-removal timer of banner `id` firing: `notification.remove()`, which
      does nothing when the node is already gone. */
  function ExpireNotification(p: Page, id: nat): (q: Page)
    ensures |q.notifications| <= |p.notifications|
    ensures forall i :: 0 <= i < |q.notifications| ==> q.notifications[i].id != id
    ensures forall n :: n in p.notifications && n.id != id ==> n in q.notifications
    ensures forall n :: n in q.notifications ==> n in p.notifications
    ensures Embeds(q.notifications, p.notifications)
    ensures |p.notifications| == 1 && p.notifications[0].id == id ==> q.notifications == []
    ensures (forall n :: n in p.notifications ==> n.id != id) ==> q == p
    ensures q.(notifications := p.notifications) == p
  {
    p.(notifications := WithoutNode(p.notifications, id))
  }

  /** The events that touch the notification slot. */
  datatype NoticeEvent = Show(message: string, severity: Severity) | Expire(id: nat)

  function ApplyNotice(p: Page, e: NoticeEvent): Page
  {
    match e
    case Show(m, s) => ShowNotification(p, m, s)
    case Expire(id) => ExpireNotification(p, id)
  }

  /** The events applied in order, the last one last. */
  function ApplyNotices(p: Page, es: seq<NoticeEvent>): Page
    decreases |es|
  {
    if es == [] then p else ApplyNotice(ApplyNotices(p, es[..|es| - 1]), es[|es| - 1])
  }

  /** The single slot: from at most one banner, any series of shows and expiries
      leaves at most one, and after a show the only banner is that show's. */
  lemma {:induction false} SingleSlot(p: Page, es: seq<NoticeEvent>)
    requires |p.notifications| <= 1
    ensures |ApplyNotices(p, es).notifications| <= 1
    ensures es != [] && es[|es| - 1].Show? ==>
              var ns := ApplyNotices(p, es).notifications;
              |ns| == 1 && ns[0].message == es[|es| - 1].message && ns[0].severity == es[|es| - 1].severity
    decreases |es|
  {
    if es != [] {
      SingleSlot(p, es[..|es| - 1]);
    }
  }

  // ------------------------------------------------------------------- theme

  /** The theme flip of `changeTheme`: `light` is deleted, anything else (absent
      or another value) becomes `light`. */
  function ToggleTheme(theme: Option<string>): (r: Option<string>)
    ensures r == Some("light") <==> theme != Some("light")
    ensures r.None? <==> theme == Some("light")
  {
    if theme == Some("light") then None else Some("light")
  }

  /** `changeTheme`: flip the attribute and announce the theme now in force. */
  function ChangeTheme(p: Page): (q: Page)
    ensures q.theme == Some("light") <==> p.theme != Some("light")
    ensures q.theme.None? <==> p.theme == Some("light")
    ensures |p.notifications| <= 1 ==> |q.notifications| == 1
    ensures |q.notifications| >= 1
    ensures q.notifications[|q.notifications| - 1] ==
              Notification(p.nextNotification,
                           if q.theme.None? then "Switched to dark theme!" else "Switched to light theme!",
                           Success)
    ensures |p.notifications| > 0 ==> q.notifications[..|q.notifications| - 1] == p.notifications[1..]
    ensures q.(theme := p.theme, notifications := p.notifications, nextNotification := p.nextNotification) == p
  {
    var theme := ToggleTheme(p.theme);
    ShowNotification(p.(theme := theme),
                     if theme.None? then "Switched to dark theme!" else "Switched to light theme!",
                     Success)
  }

  /** Two flips restore the attribute exactly when it started absent or `light`;
      any other starting value comes back as absent. */
  lemma ChangeThemeTwice(p: Page)
    ensures ChangeTheme(ChangeTheme(p)).theme == p.theme <==> (p.theme.None? || p.theme == Some("light"))
    ensures ChangeTheme(ChangeTheme(p)).theme == (if p.theme == Some("light") then Some("light") else None)
  {
  }

  // ------------------------------------------------------------ project grid

  /** The status badge class: `status-` followed by the status with its first
      space turned into `-` and every other character lower-cased. */
  function StatusClass(status: string): (r: string)
    ensures |r| == |status| + 7
    ensures r[..7] == "status-"
    ensures forall i :: 0 <= i < |status| && i != Text.IndexOf(status, ' ') ==>
              r[7 + i] == Text.LowerChar(status[i])
    ensures Text.IndexOf(status, ' ') < |status| ==> r[7 + Text.IndexOf(status, ' ')] == '-'
  {
    LowerKeepsSpaces(status);
    "status-" + Text.ReplaceFirst(Text.ToLower(status), ' ', '-')
  }

  /** Lower-casing neither creates nor moves a space. */
  lemma {:induction false} LowerKeepsSpaces(s: string)
    ensures Text.IndexOf(Text.ToLower(s), ' ') == Text.IndexOf(s, ' ')
  {
    var k := Text.IndexOf(s, ' ');
    var l := Text.ToLower(s);
    assert forall i :: 0 <= i < |s| ==> (l[i] == ' ' <==> s[i] == ' ');
    if k < |s| {
      assert l[k] == ' ';
    }
  }

  /** A status with at most one space yields a single class token: no space is
      left in the class. */
  lemma StatusClassSingleToken(status: string)
    requires forall i, j :: 0 <= i < j < |status| ==> !(status[i] == ' ' && status[j] == ' ')
    ensures ' ' !in StatusClass(status)
  {
  }

  /** Only the first space is replaced: a status with a second space keeps it, so
      the class attribute splits into several tokens. */
  lemma StatusClassKeepsSecondSpace(status: string, i: nat, j: nat)
    requires i < j < |status| && status[i] == ' ' && status[j] == ' '
    ensures StatusClass(status)[7 + j] == ' '
  {
  }

  /** `createProjectCard`: the card shows the name, the status with its badge
      class, and the progress; it enters after `index` tenths of a second. */
  function CreateCard(p: Project, index: nat): Card
  {
    Card(p.name, StatusClass(p.status), p.status, p.progress, index)
  }

  /** The card at position `i` displays project `p`. */
  predicate CardShows(c: Card, p: Project, i: nat)
  {
    c.title == p.name && c.statusText == p.status && c.progress == p.progress
    && c.statusClass == StatusClass(p.status) && c.delayTenths == i
  }

  /** The grid after `loadProjects`: on a failed fetch it is left as it was;
      otherwise it holds one card per fetched project, in order. */
  function RenderGrid(grid: seq<Card>, fetched: Option<seq<Project>>): (g: seq<Card>)
    ensures fetched.None? ==> g == grid
    ensures fetched.Some? ==> |g| == |fetched.value|
    ensures fetched.Some? ==> forall i :: 0 <= i < |g| ==> CardShows(g[i], fetched.value[i], i)
  {
    match fetched
    case None => grid
    case Some(ps) => seq(|ps|, i requires 0 <= i < |ps| => CreateCard(ps[i], i))
  }

  /** `loadProjects` as the script runs it: the grid is emptied and the cards are
      appended one at a time; the result is the grid `RenderGrid` describes. */
  method LoadProjects(grid: seq<Card>, fetched: Option<seq<Project>>) returns (g: seq<Card>)
    ensures g == RenderGrid(grid, fetched)
    ensures fetched.None? ==> g == grid
    ensures fetched.Some? ==> |g| == |fetched.value|
    ensures fetched.Some? ==> forall i :: 0 <= i < |g| ==> CardShows(g[i], fetched.value[i], i)
  {
    if fetched.None? {
      return grid;
    }
    var ps := fetched.value;
    ghost var full := RenderGrid(grid, fetched);
    g := [];
    var i := 0;
    while i < |ps|
      invariant i <= |ps|
      invariant |g| == i
      invariant forall k :: 0 <= k < i ==> g[k] == full[k]
    {
      g := g + [CreateCard(ps[i], i)];
      i := i + 1;
    }
  }

  // --------------------------------------------------------------- joke URL

  const RandomJokePath: string := "/api/joke"
  const CategoryPathPrefix: string := "/api/jokes/"

  /** The URL `getRandomJoke` fetches for the selected menu value. */
  function JokeUrl(selected: string): (url: string)
    ensures selected == "" ==> url == RandomJokePath
    ensures selected != "" ==> |url| == |CategoryPathPrefix| + |selected|
                                && url[..|CategoryPathPrefix|] == CategoryPathPrefix
                                && url[|CategoryPathPrefix|..] == selected
  {
    if selected != "" then CategoryPathPrefix + selected else RandomJokePath
  }

  /** Which joke handler of the server a path reaches: the random-joke route, the
      category route (whose `<category>` segment is non-empty and has no `/`), or
      neither. */
  datatype JokeRoute = RandomJokeRoute | CategoryRoute(category: string) | NoJokeRoute

  function RouteOf(url: string): (r: JokeRoute)
    ensures r.CategoryRoute? ==> url == CategoryPathPrefix + r.category && r.category != ""
  {
    var n := |CategoryPathPrefix|;
    if url == RandomJokePath then RandomJokeRoute
    else if |url| > n && url[..n] == CategoryPathPrefix && '/' !in url[n..] then
      assert url == url[..n] + url[n..];
      CategoryRoute(url[n..])
    else NoJokeRoute
  }

  /** A category the browser's URL parser passes on unchanged as the last path
      segment: non-empty, not a dot segment, printable ASCII without a space, and
      none of the characters that end, split or escape a path segment. */
  predicate RoutableSegment(s: string)
  {
    && s != "" && s != "." && s != ".."
    && forall i :: 0 <= i < |s| ==> ' ' < s[i] && s[i] as int < 127 && s[i] !in "/\\?#%"
  }

  /** The URL reaches the category handler for exactly the selected category when
      one is selected, and the random-joke handler otherwise. */
  lemma JokeUrlReachesHandler(selected: string)
    requires selected == "" || RoutableSegment(selected)
    ensures RouteOf(JokeUrl(selected)) ==
              if selected == "" then RandomJokeRoute else CategoryRoute(selected)
  {
  }

  /** Different selections give different URL strings passed to `fetch`. */
  lemma JokeUrlInjective(a: string, b: string)
    ensures a != b ==> JokeUrl(a) != JokeUrl(b)
  {
    var n := |CategoryPathPrefix|;
    if a != b {
      if a != "" && b != "" {
        assert JokeUrl(a)[n..] == a && JokeUrl(b)[n..] == b;
        assert JokeUrl(a)[n..] != JokeUrl(b)[n..];
      } else if a != "" {
        assert |JokeUrl(a)| > |JokeUrl(b)|;
      } else {
        assert |JokeUrl(b)| > |JokeUrl(a)|;
      }
    }
  }

  // ----------------------------------------------------------- category menu

  /** The options `initializeJokeSection` appends: one per category, in order, with
      the category as value and its capitalised form as caption. */
  function CategoryOptions(categories: seq<string>): (opts: seq<CategoryOption>)
    ensures |opts| == |categories|
    ensures forall i :: 0 <= i < |opts| ==>
              opts[i].value == categories[i] && opts[i].caption == Text.Capitalize(categories[i])
  {
    seq(|categories|, i requires 0 <= i < |categories| => CategoryOption(categories[i], Text.Capitalize(categories[i])))
  }

  /** The select's value after `categories` are appended to a menu holding
      `options` with value `selected`: a browser selects the first option added
      to an empty select. */
  function SelectionAfter(options: seq<CategoryOption>, categories: seq<string>, selected: string): (r: string)
    ensures options == [] && categories != [] ==> r == categories[0]
    ensures options != [] || categories == [] ==> r == selected
  {
    if options == [] && categories != [] then categories[0] else selected
  }

  /** Appends the menu options for the fetched categories after the options
      already in the menu. A browser selects the first option appended to an
      empty menu, so an empty menu ends up showing the first category; a menu
      that already had options keeps its selection. */
  function InitCategoryMenu(p: Page, categories: seq<string>): (q: Page)
    ensures |q.options| == |p.options| + |categories|
    ensures q.options[..|p.options|] == p.options
    ensures forall i :: 0 <= i < |categories| ==>
              q.options[|p.options| + i] == CategoryOption(categories[i], Text.Capitalize(categories[i]))
    ensures p.options == [] && categories != [] ==> q.selected == categories[0]
    ensures p.options != [] || categories == [] ==> q.selected == p.selected
    ensures q.(options := p.options, selected := p.selected) == p
  {
    p.(options := p.options + CategoryOptions(categories), selected := SelectionAfter(p.options, categories, p.selected))
  }

  /** Choosing a value in the category menu. */
  function SelectCategory(p: Page, value: string): (q: Page)
    ensures q.selected == value
    ensures q.(selected := p.selected) == p
  {
    p.(selected := value)
  }

  /** Every menu option built from the server's category list, once chosen, makes
      `getRandomJoke` fetch the route of that category, and the server has a joke
      for it, so choosing it never draws the 404. */
  lemma MenuOptionHasJoke(p: Page, js: seq<Joke>, i: nat, pick: nat)
    requires i < |GetJokeCategories(js)|
    requires RoutableSegment(GetJokeCategories(js)[i])
    ensures var o := CategoryOptions(GetJokeCategories(js))[i];
            var route := RouteOf(JokeUrl(SelectCategory(p, o.value).selected));
            && route == CategoryRoute(o.value)
            && GetJokeByCategory(js, route.category, pick).Ok?
            && GetJokeByCategory(js, route.category, pick).value.category == o.value
  {
    JokeUrlReachesHandler(GetJokeCategories(js)[i]);
  }

  /** A non-empty word of lower-case ASCII letters can be routed. */
  lemma LowerWordRoutable(s: string)
    requires s != "" && forall i :: 0 <= i < |s| ==> 'a' <= s[i] <= 'z'
    ensures RoutableSegment(s)
  {
    assert s != "." && s != ".." by {
      assert 'a' <= s[0] <= 'z';
    }
  }

  /** Every category of the seeded joke table can be routed. */
  lemma SeedCategoriesRoutable()
    ensures forall c :: c in GetJokeCategories(Jokes) ==> RoutableSegment(c)
  {
    LowerWordRoutable("programming");
    LowerWordRoutable("food");
    LowerWordRoutable("pun");
    LowerWordRoutable("school");
    forall k | 0 <= k < |Jokes|
      ensures RoutableSegment(Jokes[k].category)
    {
      var c := Jokes[k].category;
      assert c == "programming" || c == "food" || c == "pun" || c == "school";
    }
  }

  /** The label shown under a typed joke. */
  function CategoryLabel(category: string): (r: string)
    ensures |r| == |category| + 10
    ensures r[..10] == "Category: " && r[10..] == Text.Capitalize(category)
  {
    "Category: " + Text.Capitalize(category)
  }
}

=== FILE: session.dfy ===
/** The joke session of `static/js/app.js`: `getRandomJoke` hands a fetched joke to
    `typeJoke`, which types the setup, waits, types the punchline and shows the
    category. Timers are explicit: every tick is a task in `Page.scheduled`, and
    firing a timer runs its task. Before a new joke is typed, every handle in
    `typingTimeouts` is cleared.

    The source starts the pause between setup and punchline with a timer whose
    handle is never put into `typingTimeouts`. The flag `recordPause` selects
    between that behaviour (false, the source as written) and the corrected one
    that records the pause like every other typing timer (true, used by `Fire`
    and the all-traces invariants). */
module JokeSession {
  import opened Wrappers
  import opened Store
  import opened Typing
  import opened Page

  /** The text a typing run on `part` reveals. */
  function PartText(j: Joke, part: Part): string
  {
    if part == SetupPart then j.setup else j.punchline
  }

  function ElementOf(p: Page, part: Part): Element
  {
    if part == SetupPart then p.setup else p.punchline
  }

  function WithElement(p: Page, part: Part, e: Element): Page
  {
    if part == SetupPart then p.(setup := e) else p.(punchline := e)
  }

  const Blank: Element := Element("", false, false)

  /** Clearing every recorded typing timer and emptying the list: a cleared timer
      never fires, every other pending timer still does. */
  function CancelTyping(p: Page): (q: Page)
    ensures q.typingTimeouts == []
    ensures forall h :: h in q.scheduled <==> h in p.scheduled && h !in p.typingTimeouts
    ensures forall h :: h in q.scheduled ==> q.scheduled[h] == p.scheduled[h]
    ensures q.(typingTimeouts := p.typingTimeouts, scheduled := p.scheduled) == p
  {
    p.(typingTimeouts := [],
       scheduled := map h | h in p.scheduled && h !in p.typingTimeouts :: p.scheduled[h])
  }

  /** The start of `typeJoke`: setup, punchline and category label emptied, the
      typing classes removed. */
  function ClearJoke(p: Page): (q: Page)
    ensures q.setup == Blank && q.punchline == Blank && q.categoryLabel == ""
    ensures q.(setup := p.setup, punchline := p.punchline, categoryLabel := p.categoryLabel) == p
  {
    p.(setup := Blank, punchline := Blank, categoryLabel := "")
  }

  /** `setTimeout` for task `t`: a fresh handle, recorded in `typingTimeouts` when
      `record` holds. */
  function Schedule(p: Page, t: Task, record: bool): (q: Page)
    ensures p.nextHandle in q.scheduled && q.scheduled[p.nextHandle] == t
    ensures q.nextHandle > p.nextHandle
  {
    var h := p.nextHandle;
    p.(scheduled := p.scheduled[h := t],
       typingTimeouts := if record then p.typingTimeouts + [h] else p.typingTimeouts,
       nextHandle := h + 1)
  }

  /** Runs one task: a call of `type` on its element, or the end of the pause,
      which starts typing the punchline. When a setup run resolves the pause is
      scheduled; when a punchline run resolves the category label is shown and
      `getRandomJoke` announces the joke. */
  function RunTask(p: Page, t: Task, recordPause: bool): (q: Page)
    ensures q.currentJoke == p.currentJoke && q.theme == p.theme && q.grid == p.grid
    ensures q.options == p.options && q.selected == p.selected
    ensures p.setup.text <= q.setup.text && p.punchline.text <= q.punchline.text
    ensures |q.setup.text| + |q.punchline.text| <= |p.setup.text| + |p.punchline.text| + 1
    ensures q.nextHandle >= p.nextHandle
    ensures forall h :: h in p.scheduled && h < p.nextHandle ==> h in q.scheduled && q.scheduled[h] == p.scheduled[h]
    ensures forall h :: h in q.scheduled && h !in p.scheduled ==> p.nextHandle <= h < q.nextHandle
    ensures forall h :: h in p.typingTimeouts ==> h in q.typingTimeouts
    decreases if t.Pause? then 1 else 0
  {
    match t
    case TypeChar(j, part, pos) =>
      (match TypeStep(ElementOf(p, part), PartText(j, part), pos, p.nextHandle)
       case Appended(e, _) => Schedule(WithElement(p, part, e), TypeChar(j, part, pos + 1), true)
       case Finished(e) =>
         var q := WithElement(p, part, e);
         if part == SetupPart then Schedule(q, Pause(j), recordPause)
         else ShowNotification(q.(categoryLabel := CategoryLabel(j.category)), "New joke loaded!", Success))
    case Pause(j) =>
      RunTask(p.(punchline := p.punchline.(typing := true)), TypeChar(j, PunchlinePart, 0), recordPause)
  }

  /** A fetched joke arriving: it becomes current, the recorded typing timers are
      cleared, the elements are emptied and the first character of the setup is
      typed at once. */
  function NewJoke(p: Page, j: Joke, recordPause: bool): (q: Page)
    ensures q.currentJoke == Some(j)
    ensures q.punchline.text == "" && q.categoryLabel == ""
    ensures q.setup.text == if j.setup == "" then "" else j.setup[..1]
    ensures q.theme == p.theme && q.grid == p.grid && q.options == p.options && q.selected == p.selected
  {
    var q := ClearJoke(CancelTyping(p.(currentJoke := Some(j))));
    RunTask(q.(setup := q.setup.(typing := true)), TypeChar(j, SetupPart, 0), recordPause)
  }

  /** The browser firing timer `h`; a cleared or already fired timer does nothing. */
  function FireWith(p: Page, h: Handle, recordPause: bool): (q: Page)
    ensures h !in p.scheduled ==> q == p
    ensures HandlesIssued(p) ==> h !in q.scheduled
    ensures q.currentJoke == p.currentJoke
  {
    if h in p.scheduled then RunTask(p.(scheduled := p.scheduled - {h}), p.scheduled[h], recordPause)
    else p
  }

  /** The end of the fetch in `getRandomJoke`: None stands for a failed request,
      a non-ok status or an unreadable body, which only raises an error banner. */
  function OnJokeResponseWith(p: Page, response: Option<Joke>, recordPause: bool): (q: Page)
    ensures response.None? ==>
              && |q.notifications| >= 1
              && q.(notifications := p.notifications, nextNotification := p.nextNotification) == p
              && q.notifications[|q.notifications| - 1] == Notification(p.nextNotification, "Failed to load joke", Failure)
              && (|p.notifications| > 0 ==> q.notifications[..|q.notifications| - 1] == p.notifications[1..])
    ensures response.Some? ==> q.currentJoke == response && q.punchline.text == "" && q.categoryLabel == ""
  {
    match response
    case None => ShowNotification(p, "Failed to load joke", Failure)
    case Some(j) => NewJoke(p, j, recordPause)
  }

  function Fire(p: Page, h: Handle): Page { FireWith(p, h, true) }

  // ------------------------------------------------------------- invariant

  /** Task `t` is the one pending piece of typing for joke `j`, and the joke
      elements show exactly what that task has typed so far. */
  ghost predicate Fits(p: Page, j: Joke, t: Task)
  {
    match t
    case TypeChar(j', part, pos) =>
      && j' == j
      && pos <= |PartText(j, part)|
      && (if part == SetupPart then p.setup.text == j.setup[..pos] && p.punchline.text == ""
          else p.setup.text == j.setup && p.punchline.text == j.punchline[..pos])
    case Pause(j') => j' == j && p.setup.text == j.setup && p.punchline.text == ""
  }

  /** At most one typing timer is pending, it is recorded, it belongs to the
      current joke, the joke elements only ever show prefixes of the current
      joke's setup and punchline, and the category label is empty or names the
      current joke's category. */
  ghost predicate Coherent(p: Page)
  {
    && (forall h :: h in p.scheduled ==> h in p.typingTimeouts)
    && (forall h, h' :: h in p.scheduled && h' in p.scheduled ==> h == h')
    && match p.currentJoke
       case None => p.scheduled == map[] && p.categoryLabel == ""
       case Some(j) =>
         && p.setup.text <= j.setup
         && p.punchline.text <= j.punchline
         && (p.categoryLabel == "" || p.categoryLabel == CategoryLabel(j.category))
         && forall h :: h in p.scheduled ==> Fits(p, j, p.scheduled[h])
  }

  /** A call of `type` that appends keeps the invariant: the element grows by
      the next character and the follow-up tick is the one pending timer. */
  lemma AppendCoherent(p: Page, j: Joke, part: Part, pos: nat)
    requires p.scheduled == map[] && p.currentJoke == Some(j) && Fits(p, j, TypeChar(j, part, pos))
    requires p.categoryLabel == "" || p.categoryLabel == CategoryLabel(j.category)
    requires pos < |PartText(j, part)|
    ensures Coherent(RunTask(p, TypeChar(j, part, pos), true))
  {
    var text := PartText(j, part);
    var e := ElementOf(p, part);
    var e' := e.(text := e.text + [text[pos]]);
    var q := RunTask(p, TypeChar(j, part, pos), true);
    assert q == Schedule(WithElement(p, part, e'), TypeChar(j, part, pos + 1), true);
    assert text[..pos + 1] == text[..pos] + [text[pos]];
    assert q.scheduled == map[p.nextHandle := TypeChar(j, part, pos + 1)];
  }

  /** The call of `type` that ends a run keeps the invariant: the end of the
      setup leaves the pause as the one pending timer, the end of the punchline
      leaves none and shows the current joke's label. */
  lemma FinishCoherent(p: Page, j: Joke, part: Part, pos: nat)
    requires p.scheduled == map[] && p.currentJoke == Some(j) && Fits(p, j, TypeChar(j, part, pos))
    requires p.categoryLabel == "" || p.categoryLabel == CategoryLabel(j.category)
    requires pos >= |PartText(j, part)|
    ensures Coherent(RunTask(p, TypeChar(j, part, pos), true))
  {
    var q := RunTask(p, TypeChar(j, part, pos), true);
    if part == SetupPart {
      assert j.setup[..pos] == j.setup;
      assert q.scheduled == map[p.nextHandle := Pause(j)];
    } else {
      assert q.scheduled == map[];
    }
  }

  /** Running the one pending task keeps the invariant. */
  lemma RunTaskCoherent(p: Page, j: Joke, t: Task)
    requires p.scheduled == map[] && p.currentJoke == Some(j) && Fits(p, j, t)
    requires p.categoryLabel == "" || p.categoryLabel == CategoryLabel(j.category)
    ensures Coherent(RunTask(p, t, true))
  {
    match t
    case TypeChar(_, part, pos) =>
      if pos < |PartText(j, part)| {
        AppendCoherent(p, j, part, pos);
      } else {
        FinishCoherent(p, j, part, pos);
      }
    case Pause(_) =>
      var p' := p.(punchline := p.punchline.(typing := true));
      if 0 < |j.punchline| {
        AppendCoherent(p', j, PunchlinePart, 0);
      } else {
        FinishCoherent(p', j, PunchlinePart, 0);
      }
  }

  /** Firing any timer keeps the invariant. */
  lemma FireCoherent(p: Page, h: Handle)
    requires Coherent(p)
    ensures Coherent(Fire(p, h))
  {
    if h in p.scheduled {
      var j := p.currentJoke.value;
      var q := p.(scheduled := p.scheduled - {h});
      assert q.scheduled == map[];
      RunTaskCoherent(q, j, p.scheduled[h]);
    }
  }

  /** A new joke cancels everything pending (every pending timer is recorded) and
      starts from empty elements, so the invariant holds for the new joke. */
  lemma NewJokeCoherent(p: Page, j: Joke)
    requires Coherent(p)
    ensures Coherent(NewJoke(p, j, true))
    ensures NewJoke(p, j, true).currentJoke == Some(j)
  {
  }

  /** Every handle the page knows was handed out before `nextHandle`. */
  ghost predicate HandlesIssued(p: Page)
  {
    && (forall i :: 0 <= i < |p.typingTimeouts| ==> p.typingTimeouts[i] < p.nextHandle)
    && (forall h :: h in p.scheduled ==> h < p.nextHandle)
  }

  /** Whatever the pause does, a new joke starts clean: the current joke is the new
      one, no timer recorded before it can still fire, every recorded handle is
      new, the punchline and category label are empty and the setup shows at most
      its first character. */
  lemma NewJokeStartsClean(p: Page, j: Joke, recordPause: bool)
    requires HandlesIssued(p)
    ensures var q := NewJoke(p, j, recordPause);
            && q.currentJoke == Some(j)
            && (forall h :: h in p.typingTimeouts ==> h !in q.scheduled)
            && (forall i :: 0 <= i < |q.typingTimeouts| ==> q.typingTimeouts[i] >= p.nextHandle)
            && q.punchline.text == "" && q.categoryLabel == ""
            && q.setup.text == (if j.setup == "" then "" else j.setup[..1])
  {
  }

  /** Running a task only hands out handles from the counter. */
  lemma RunTaskIssued(p: Page, t: Task, recordPause: bool)
    requires HandlesIssued(p)
    ensures HandlesIssued(RunTask(p, t, recordPause))
  {
  }

  /** One event keeps the handles issued by the counter. */
  lemma ApplyKeepsHandlesIssued(p: Page, e: Event, recordPause: bool)
    requires HandlesIssued(p)
    ensures HandlesIssued(ApplyWith(p, e, recordPause))
  {
    match e
    case Tick(h) =>
      if h in p.scheduled {
        RunTaskIssued(p.(scheduled := p.scheduled - {h}), p.scheduled[h], recordPause);
      }
    case JokeArrived(r) =>
      if r.Some? {
        var c := ClearJoke(CancelTyping(p.(currentJoke := Some(r.value))));
        RunTaskIssued(c.(setup := c.setup.(typing := true)), TypeChar(r.value, SetupPart, 0), recordPause);
      }
    case ThemeToggled =>
    case Notice(n) =>
    case CategoriesArrived(cs) =>
    case CategoryChosen(v) =>
    case ProjectsArrived(f) =>
  }

  /** Every event keeps the handles issued by the counter, so the freshness that
      `NewJokeStartsClean` relies on holds on every reachable page. */
  lemma {:induction false} TraceKeepsHandlesIssued(p: Page, es: seq<Event>, recordPause: bool)
    requires HandlesIssued(p)
    ensures HandlesIssued(RunEvents(p, es, recordPause))
    decreases |es|
  {
    if es != [] {
      TraceKeepsHandlesIssued(p, es[..|es| - 1], recordPause);
      ApplyKeepsHandlesIssued(RunEvents(p, es[..|es| - 1], recordPause), es[|es| - 1], recordPause);
    }
  }

  /** Running a task shows at most one banner, so the single slot is kept. */
  lemma RunTaskSingleSlot(p: Page, t: Task, recordPause: bool)
    requires |p.notifications| <= 1
    ensures |RunTask(p, t, recordPause).notifications| <= 1
  {
  }

  /** A typing task on the page is one tick of the run `typeText` describes: the
      element changes as `Advance` says, and while characters remain the page's
      list of recorded handles and its counter move exactly as the run's do. */
  lemma RunTaskIsAdvance(p: Page, j: Joke, part: Part, pos: nat, recordPause: bool)
    ensures var text := PartText(j, part);
            var run := Advance(Run(ElementOf(p, part), pos, p.typingTimeouts, p.nextHandle, false), text);
            var q := RunTask(p, TypeChar(j, part, pos), recordPause);
            && ElementOf(q, part) == run.elem
            && (pos < |text| ==>
                  && !run.done && q.typingTimeouts == run.timers && q.nextHandle == run.nextHandle
                  && q.scheduled == p.scheduled[p.nextHandle := TypeChar(j, part, run.pos)])
            && (pos >= |text| ==> run.done && (part == PunchlinePart ==> q.typingTimeouts == run.timers))
  {
  }

  // ---------------------------------------------------------------- traces

  /** What can happen to the page: a timer fires, a joke fetch ends, the theme is
      toggled, a banner is shown or expires, the category menu is filled, a
      category is chosen, or a projects fetch ends (None for a failed one). */
  datatype Event =
    | Tick(handle: Handle)
    | JokeArrived(response: Option<Joke>)
    | ThemeToggled
    | Notice(notice: NoticeEvent)
    | CategoriesArrived(categories: seq<string>)
    | CategoryChosen(value: string)
    | ProjectsArrived(fetched: Option<seq<Project>>)

  function ApplyWith(p: Page, e: Event, recordPause: bool): Page
  {
    match e
    case Tick(h) => FireWith(p, h, recordPause)
    case JokeArrived(r) => OnJokeResponseWith(p, r, recordPause)
    case ThemeToggled => ChangeTheme(p)
    case Notice(n) => ApplyNotice(p, n)
    case CategoriesArrived(cs) => InitCategoryMenu(p, cs)
    case CategoryChosen(v) => SelectCategory(p, v)
    case ProjectsArrived(f) => p.(grid := RenderGrid(p.grid, f))
  }

  function RunEvents(p: Page, es: seq<Event>, recordPause: bool): Page
    decreases |es|
  {
    if es == [] then p else ApplyWith(RunEvents(p, es[..|es| - 1], recordPause), es[|es| - 1], recordPause)
  }

  /** A page before any joke has arrived. */
  function InitialPage(theme: Option<string>): (p: Page)
    ensures p.currentJoke.None? && p.scheduled == map[] && p.notifications == []
    ensures Coherent(p) && HandlesIssued(p)
  {
    Page(theme, [], 0, [], [], "", None, Blank, Blank, "", [], map[], 0)
  }

  /** The invariant reads only the joke, its elements, its label and the timers. */
  lemma SameSessionCoherent(p: Page, q: Page)
    requires Coherent(p)
    requires q.currentJoke == p.currentJoke && q.setup == p.setup && q.punchline == p.punchline
    requires q.categoryLabel == p.categoryLabel && q.typingTimeouts == p.typingTimeouts && q.scheduled == p.scheduled
    ensures Coherent(q)
  {
    assert forall h :: h in q.scheduled ==> Fits(p, p.currentJoke.value, p.scheduled[h]) ==> Fits(q, q.currentJoke.value, q.scheduled[h]);
  }

  /** Every event keeps the invariant when the pause is recorded. */
  lemma ApplyKeepsCoherent(p: Page, e: Event)
    requires Coherent(p)
    ensures Coherent(ApplyWith(p, e, true))
  {
    match e
    case Tick(h) => FireCoherent(p, h);
    case JokeArrived(r) =>
      if r.Some? {
        NewJokeCoherent(p, r.value);
      } else {
        SameSessionCoherent(p, ShowNotification(p, "Failed to load joke", Failure));
      }
    case ThemeToggled => SameSessionCoherent(p, ChangeTheme(p));
    case Notice(n) => SameSessionCoherent(p, ApplyNotice(p, n));
    case CategoriesArrived(cs) => SameSessionCoherent(p, InitCategoryMenu(p, cs));
    case CategoryChosen(v) => SameSessionCoherent(p, SelectCategory(p, v));
    case ProjectsArrived(f) => SameSessionCoherent(p, p.(grid := RenderGrid(p.grid, f)));
  }

  /** Whatever happens, with the pause recorded, the joke elements show only
      prefixes of the current joke and the label names no other joke's category:
      nothing from an earlier joke is ever shown after a newer one has arrived. */
  lemma {:induction false} TraceKeepsJokeText(p: Page, es: seq<Event>)
    requires Coherent(p)
    ensures Coherent(RunEvents(p, es, true))
    ensures var q := RunEvents(p, es, true);
            q.currentJoke.Some? ==>
              && q.setup.text <= q.currentJoke.value.setup && q.punchline.text <= q.currentJoke.value.punchline
              && (q.categoryLabel == "" || q.categoryLabel == CategoryLabel(q.currentJoke.value.category))
    decreases |es|
  {
    if es != [] {
      TraceKeepsJokeText(p, es[..|es| - 1]);
      ApplyKeepsCoherent(RunEvents(p, es[..|es| - 1], true), es[|es| - 1]);
    }
  }

  /** Every event keeps the notification slot to at most one banner, as written
      and corrected alike. */
  lemma {:induction false} TraceKeepsSingleSlot(p: Page, es: seq<Event>, recordPause: bool)
    requires |p.notifications| <= 1
    ensures |RunEvents(p, es, recordPause).notifications| <= 1
    decreases |es|
  {
    if es != [] {
      var q := RunEvents(p, es[..|es| - 1], recordPause);
      TraceKeepsSingleSlot(p, es[..|es| - 1], recordPause);
      match es[|es| - 1]
      case Tick(h) =>
        if h in q.scheduled {
          RunTaskSingleSlot(q.(scheduled := q.scheduled - {h}), q.scheduled[h], recordPause);
        }
      case JokeArrived(r) =>
        if r.Some? {
          var c := ClearJoke(CancelTyping(q.(currentJoke := Some(r.value))));
          RunTaskSingleSlot(c.(setup := c.setup.(typing := true)), TypeChar(r.value, SetupPart, 0), recordPause);
        }
      case ThemeToggled =>
      case Notice(n) =>
        SingleSlot(q, [n]);
        assert [n][..0] == [];
      case CategoriesArrived(cs) =>
      case CategoryChosen(v) =>
      case ProjectsArrived(f) =>
    }
  }

  // --------------------------------------------------------------- finding

  const FirstJoke: Joke := Joke("a", "b", "pun")
  const SecondJoke: Joke := Joke("x", "y", "food")

  /** The trace that shows the unrecorded pause. The first joke's setup finishes,
      so its pause is pending, and the second joke arrives. The first joke's pause
      then fires within 50 ms of that arrival, before the second joke's next tick
      (handle 2). The ticks then fire in the order they were set: the second
      joke's setup finishes, and the first joke's punchline finishes. */
  const LatePause: seq<Event> :=
    [JokeArrived(Some(FirstJoke)), Tick(0), JokeArrived(Some(SecondJoke)), Tick(1), Tick(2), Tick(3)]

  /** The pages of the trace `LatePause`, step by step. */
  const AfterFirst: Page :=
    Page(None, [], 0, [], [], "", Some(FirstJoke), Element("a", true, false), Blank, "",
         [0], map[0 := TypeChar(FirstJoke, SetupPart, 1)], 1)

  function AfterSetup(recordPause: bool): Page
  {
    Page(None, [], 0, [], [], "", Some(FirstJoke), Element("a", false, true), Blank, "",
         if recordPause then [0, 1] else [0], map[1 := Pause(FirstJoke)], 2)
  }

  function AfterSecond(recordPause: bool): Page
  {
    Page(None, [], 0, [], [], "", Some(SecondJoke), Element("x", true, false), Blank, "",
         [2], if recordPause then map[2 := TypeChar(SecondJoke, SetupPart, 1)]
              else map[1 := Pause(FirstJoke), 2 := TypeChar(SecondJoke, SetupPart, 1)], 3)
  }

  // As written: the first joke's pause starts its punchline under the second joke.
  const LatePunchline: Page :=
    Page(None, [], 0, [], [], "", Some(SecondJoke), Element("x", true, false), Element("b", true, false), "",
         [2, 3], map[2 := TypeChar(SecondJoke, SetupPart, 1), 3 := TypeChar(FirstJoke, PunchlinePart, 1)], 4)

  const LateSetupDone: Page :=
    Page(None, [], 0, [], [], "", Some(SecondJoke), Element("x", false, true), Element("b", true, false), "",
         [2, 3], map[3 := TypeChar(FirstJoke, PunchlinePart, 1), 4 := Pause(SecondJoke)], 5)

  const LateLabel: Page :=
    Page(None, [Notification(0, "New joke loaded!", Success)], 1, [], [], "", Some(SecondJoke),
         Element("x", false, true), Element("b", false, true), "Category: Pun",
         [2, 3], map[4 := Pause(SecondJoke)], 5)

  // Corrected: the pause was cleared, and handle 3 goes to the second joke's pause.
  const SecondSetupDone: Page :=
    Page(None, [], 0, [], [], "", Some(SecondJoke), Element("x", false, true), Blank, "",
         [2, 3], map[3 := Pause(SecondJoke)], 4)

  const SecondPunchlineStarts: Page :=
    Page(None, [], 0, [], [], "", Some(SecondJoke), Element("x", false, true), Element("y", true, false), "",
         [2, 3, 4], map[4 := TypeChar(SecondJoke, PunchlinePart, 1)], 5)

  lemma FirstArrives(recordPause: bool)
    ensures OnJokeResponseWith(InitialPage(None), Some(FirstJoke), recordPause) == AfterFirst
  {
  }

  lemma FirstSetupEnds(recordPause: bool)
    ensures FireWith(AfterFirst, 0, recordPause) == AfterSetup(recordPause)
  {
  }

  lemma SecondArrives(recordPause: bool)
    ensures OnJokeResponseWith(AfterSetup(recordPause), Some(SecondJoke), recordPause) == AfterSecond(recordPause)
  {
  }

  lemma LatePauseFires()
    ensures FireWith(AfterSecond(false), 1, false) == LatePunchline
  {
  }

  lemma LateSecondSetupEnds()
    ensures FireWith(LatePunchline, 2, false) == LateSetupDone
  {
  }

  lemma LatePunchlineEnds()
    ensures FireWith(LateSetupDone, 3, false) == LateLabel
  {
    assert Text.Capitalize("pun") == "Pun";
  }

  lemma CancelledPauseIsSilent()
    ensures FireWith(AfterSecond(true), 1, true) == AfterSecond(true)
  {
  }

  lemma SecondSetupEnds()
    ensures FireWith(AfterSecond(true), 2, true) == SecondSetupDone
  {
  }

  lemma SecondPauseEnds()
    ensures FireWith(SecondSetupDone, 3, true) == SecondPunchlineStarts
  {
  }

  /** Running one more event after a trace. */
  lemma RunEventsSnoc(p: Page, es: seq<Event>, e: Event, recordPause: bool)
    ensures RunEvents(p, es + [e], recordPause) == ApplyWith(RunEvents(p, es, recordPause), e, recordPause)
  {
    assert (es + [e])[..|es|] == es;
  }

  /** The first k + 1 events of a trace: the first k, then event k. */
  lemma TraceStep(p: Page, es: seq<Event>, k: nat, recordPause: bool)
    requires k < |es|
    ensures RunEvents(p, es[..k + 1], recordPause) == ApplyWith(RunEvents(p, es[..k], recordPause), es[k], recordPause)
  {
    assert es[..k + 1] == es[..k] + [es[k]];
    RunEventsSnoc(p, es[..k], es[k], recordPause);
  }

  lemma FirstArrivedTrace(recordPause: bool)
    ensures RunEvents(InitialPage(None), LatePause[..1], recordPause) == AfterFirst
  {
    assert LatePause[..1] == [] + [LatePause[0]];
    RunEventsSnoc(InitialPage(None), [], LatePause[0], recordPause);
    FirstArrives(recordPause);
  }

  lemma FirstSetupTrace(recordPause: bool)
    ensures RunEvents(InitialPage(None), LatePause[..2], recordPause) == AfterSetup(recordPause)
  {
    FirstArrivedTrace(recordPause);
    TraceStep(InitialPage(None), LatePause, 1, recordPause);
    FirstSetupEnds(recordPause);
  }

  /** The first three events of `LatePause` leave the second joke typing, with
      the first joke's pause still pending unless it was recorded. */
  lemma LatePausePrefix(recordPause: bool)
    ensures RunEvents(InitialPage(None), LatePause[..3], recordPause) == AfterSecond(recordPause)
  {
    FirstSetupTrace(recordPause);
    TraceStep(InitialPage(None), LatePause, 2, recordPause);
    SecondArrives(recordPause);
  }

  lemma LatePunchlineAsWritten()
    ensures RunEvents(InitialPage(None), LatePause[..4], false) == LatePunchline
  {
    LatePausePrefix(false);
    TraceStep(InitialPage(None), LatePause, 3, false);
    LatePauseFires();
  }

  lemma LateSetupAsWritten()
    ensures RunEvents(InitialPage(None), LatePause[..5], false) == LateSetupDone
  {
    LatePunchlineAsWritten();
    TraceStep(InitialPage(None), LatePause, 4, false);
    LateSecondSetupEnds();
  }

  /** `LatePause` as written ends in `LateLabel`. */
  lemma LatePauseAsWritten()
    ensures RunEvents(InitialPage(None), LatePause, false) == LateLabel
  {
    LateSetupAsWritten();
    TraceStep(InitialPage(None), LatePause, 5, false);
    assert LatePause[..6] == LatePause;
    LatePunchlineEnds();
  }

  lemma SecondSetupRecorded()
    ensures RunEvents(InitialPage(None), LatePause[..5], true) == SecondSetupDone
  {
    LatePausePrefix(true);
    TraceStep(InitialPage(None), LatePause, 3, true);
    CancelledPauseIsSilent();
    TraceStep(InitialPage(None), LatePause, 4, true);
    SecondSetupEnds();
  }

  /** `LatePause` with the pause recorded ends in `SecondPunchlineStarts`. */
  lemma LatePauseRecorded()
    ensures RunEvents(InitialPage(None), LatePause, true) == SecondPunchlineStarts
  {
    SecondSetupRecorded();
    TraceStep(InitialPage(None), LatePause, 5, true);
    assert LatePause[..6] == LatePause;
    SecondPauseEnds();
  }

  /** As written, cancelling misses the pause: the first joke's punchline is
      typed under the second joke, and when it finishes the label names the first
      joke's category and the joke is announced as loaded. */
  lemma PauseEscapesCancel()
    ensures var q := RunEvents(InitialPage(None), LatePause, false);
            && q.currentJoke == Some(SecondJoke)
            && q.setup.text == "x"
            && q.punchline.text == "b"
            && !(q.punchline.text <= SecondJoke.punchline)
            && q.categoryLabel == CategoryLabel(FirstJoke.category)
            && q.categoryLabel != CategoryLabel(SecondJoke.category)
            && q.notifications == [Notification(0, "New joke loaded!", Success)]
  {
    LatePauseAsWritten();
    assert LateLabel.punchline.text[0] != SecondJoke.punchline[0];
    assert Text.Capitalize("pun") == "Pun";
    assert CategoryLabel(SecondJoke.category)[10] == 'F';
  }

  /** With the pause recorded, the same trace leaves the second joke intact: the
      first joke's pause was cleared with the other typing timers, so the
      punchline shows only the start of the second joke's own punchline and no
      label is shown yet. */
  lemma RecordedPauseIsCancelled()
    ensures var q := RunEvents(InitialPage(None), LatePause, true);
            && q.currentJoke == Some(SecondJoke)
            && q.setup.text == "x"
            && q.punchline.text == "y"
            && q.punchline.text <= SecondJoke.punchline
            && q.categoryLabel == ""
            && q.notifications == []
  {
    LatePauseRecorded();
  }
}

=== FILE: store.dfy ===
/** The server's in-memory tables and the handlers that read and update them
    (`app.py`). Each handler is a pure function of the tables; an update returns
    the new table beside its reply. */
module Store {
  import opened Wrappers

  datatype Project = Project(id: int, name: string, status: string, progress: int)

  datatype Joke = Joke(setup: string, punchline: string, category: string)

  /** An HTTP reply: the JSON value on success, or an error status and message. */
  datatype Reply<+T> = Ok(value: T) | HttpError(code: int, message: string)

  const NotFound: Reply<Project> := HttpError(404, "Project not found")
  const NoJokes: Reply<Joke> := HttpError(404, "No jokes found for this category")
  /** What the framework sends for an uncaught exception (a division by zero, a
      choice from an empty list). */
  const InternalError: int := 500

  const InitialProjects: seq<Project> := [
    Project(1, "AI Assistant", "active", 85),
    Project(2, "Web Dashboard", "completed", 100),
    Project(3, "Mobile App", "in-progress", 60),
    Project(4, "Data Pipeline", "planning", 20)
  ]

  const Jokes: seq<Joke> := [
    Joke("Why did the developer go broke?", "Because he used up all his cache!", "programming"),
    Joke("Why do programmers prefer dark mode?", "Because light attracts bugs!", "programming"),
    Joke("What do you call a fake noodle?", "An impasta!", "food"),
    Joke("Why don't skeletons fight each other?", "They don't have the guts!", "pun"),
    Joke("What did the ocean say to the beach?", "Nothing, it just waved!", "pun"),
    Joke("Why did the scarecrow win an award?", "Because he was outstanding in his field!", "pun"),
    Joke("What do you call cheese that isn't yours?", "Nacho cheese!", "food"),
    Joke("Why did the bicycle fall over?", "It was two-tired!", "pun"),
    Joke("What do you call a belt made of watches?", "A waist of time!", "pun"),
    Joke("Why don't eggs tell jokes?", "They'd crack each other up!", "food"),
    Joke("What did one plate say to the other plate?", "Tonight, dinner's on me!", "food"),
    Joke("Why did the math book look sad?", "Because it had too many problems!", "school")
  ]

  // ---------------------------------------------------------------- projects

  /** Every stored progress value lies in [0, 100]. */
  ghost predicate ProgressInRange(ps: seq<Project>)
  {
    forall i :: 0 <= i < |ps| ==> 0 <= ps[i].progress <= 100
  }

  /** Two records that agree on everything except possibly `progress`. */
  predicate SameExceptProgress(a: Project, b: Project)
  {
    a.id == b.id && a.name == b.name && a.status == b.status
  }

  /** `min(100, max(0, p))`. */
  function Clamp(p: int): (r: int)
    ensures 0 <= r <= 100
    ensures 0 <= p <= 100 ==> r == p
    ensures p < 0 ==> r == 0
    ensures p > 100 ==> r == 100
  {
    if p < 0 then 0 else if p > 100 then 100 else p
  }

  /** The generator `next(p for p in projects if p['id'] == id)`: the index of the
      FIRST record with that id, or None. */
  function FindProject(ps: seq<Project>, id: int): (r: Option<nat>)
    ensures r.Some? ==> r.value < |ps| && ps[r.value].id == id
    ensures r.Some? ==> forall j :: 0 <= j < r.value ==> ps[j].id != id
    ensures r.None? <==> forall j :: 0 <= j < |ps| ==> ps[j].id != id
  {
    if |ps| == 0 then None
    else if ps[0].id == id then Some(0)
    else match FindProject(ps[1..], id)
      case None => None
      case Some(i) => Some(i + 1)
  }

  /** The request method of `/api/projects/<id>`; a POST carries the body's
      `progress` field when the body has one. */
  datatype Request = Get | Post(progress: Option<int>)

  predicate SetsProgress(req: Request)
  {
    req.Post? && req.progress.Some?
  }

  /** A reply together with the project table after the request. */
  datatype Outcome = Outcome(reply: Reply<Project>, table: seq<Project>)

  /** `project_detail`: look the id up; on a POST whose body has `progress`, store the
      clamped value in the matched record; reply with that record. */
  function ProjectDetail(ps: seq<Project>, id: int, req: Request): (o: Outcome)
    ensures o.reply.Ok? <==> exists j :: 0 <= j < |ps| && ps[j].id == id
    ensures o.reply.HttpError? ==> o.reply == NotFound && o.table == ps
    ensures |o.table| == |ps|
    ensures forall j :: 0 <= j < |ps| ==> SameExceptProgress(o.table[j], ps[j])
    ensures forall j :: 0 <= j < |ps| && o.table[j] != ps[j] ==>
              ps[j].id == id && o.reply == Ok(o.table[j])
    ensures o.reply.Ok? ==> o.reply.value.id == id && o.reply.value in o.table
    ensures o.reply.Ok? ==> FindProject(ps, id).Some? && o.reply.value == o.table[FindProject(ps, id).value]
    ensures o.reply.Ok? && SetsProgress(req) ==> o.reply.value.progress == Clamp(req.progress.value)
    ensures o.reply.Ok? && !SetsProgress(req) ==> o.reply.value in ps
    ensures !SetsProgress(req) ==> o.table == ps
    ensures ProgressInRange(ps) ==> ProgressInRange(o.table)
  {
    match FindProject(ps, id)
    case None => Outcome(NotFound, ps)
    case Some(i) =>
      if SetsProgress(req) then
        var updated := ps[i].(progress := Clamp(req.progress.value));
        Outcome(Ok(updated), ps[i := updated])
      else
        Outcome(Ok(ps[i]), ps)
  }

  /** Serves a series of requests against the table, one after another. */
  function ServeAll(ps: seq<Project>, reqs: seq<(int, Request)>): seq<Project>
    decreases |reqs|
  {
    if reqs == [] then ps
    else ServeAll(ProjectDetail(ps, reqs[0].0, reqs[0].1).table, reqs[1..])
  }

  /** No series of requests moves a progress value out of [0, 100], and none changes
      the number of projects or any id, name or status. */
  lemma {:induction false} ServeAllKeepsInvariant(ps: seq<Project>, reqs: seq<(int, Request)>)
    requires ProgressInRange(ps)
    ensures ProgressInRange(ServeAll(ps, reqs))
    ensures |ServeAll(ps, reqs)| == |ps|
    ensures forall j :: 0 <= j < |ps| ==> SameExceptProgress(ServeAll(ps, reqs)[j], ps[j])
    decreases |reqs|
  {
    if reqs != [] {
      var next := ProjectDetail(ps, reqs[0].0, reqs[0].1).table;
      ServeAllKeepsInvariant(next, reqs[1..]);
      var last := ServeAll(ps, reqs);
      assert last == ServeAll(next, reqs[1..]);
      forall j | 0 <= j < |ps|
        ensures SameExceptProgress(last[j], ps[j])
      {
        assert SameExceptProgress(last[j], next[j]);
        assert SameExceptProgress(next[j], ps[j]);
      }
    }
  }

  /** The seed table satisfies the range invariant, so every table the server ever
      holds does. */
  lemma ServedTablesInRange(reqs: seq<(int, Request)>)
    ensures ProgressInRange(ServeAll(InitialProjects, reqs))
  {
    ServeAllKeepsInvariant(InitialProjects, reqs);
  }

  /** A POST of progress p followed by a GET of the same id reads back Clamp(p). */
  lemma PostThenGet(ps: seq<Project>, id: int, p: int)
    requires exists j :: 0 <= j < |ps| && ps[j].id == id
    ensures var after := ProjectDetail(ps, id, Post(Some(p))).table;
            ProjectDetail(after, id, Get) == Outcome(Ok(ps[FindProject(ps, id).value].(progress := Clamp(p))), after)
  {
  }

  // ------------------------------------------------------------------ stats

  /** `len([p for p in projects if p['status'] == s])`. */
  function CountStatus(ps: seq<Project>, s: string): (n: nat)
    ensures n <= |ps|
  {
    if ps == [] then 0
    else CountStatus(ps[..|ps| - 1], s) + (if ps[|ps| - 1].status == s then 1 else 0)
  }

  /** `sum(p['progress'] for p in projects)`. */
  function SumProgress(ps: seq<Project>): int
  {
    if ps == [] then 0 else SumProgress(ps[..|ps| - 1]) + ps[|ps| - 1].progress
  }

  /** Records of two different statuses are counted apart: together they never
      exceed the number of projects. */
  lemma {:induction false} CountsDisjoint(ps: seq<Project>, a: string, b: string)
    requires a != b
    ensures CountStatus(ps, a) + CountStatus(ps, b) <= |ps|
  {
    if ps != [] {
      CountsDisjoint(ps[..|ps| - 1], a, b);
    }
  }

  /** Every record has status s exactly when the count of s is the whole table. */
  lemma {:induction false} CountAll(ps: seq<Project>, s: string)
    ensures CountStatus(ps, s) == |ps| <==> forall i :: 0 <= i < |ps| ==> ps[i].status == s
  {
    if ps != [] {
      var init := ps[..|ps| - 1];
      CountAll(init, s);
      if CountStatus(ps, s) == |ps| {
        assert CountStatus(init, s) == |init| && ps[|ps| - 1].status == s;
        forall i | 0 <= i < |ps|
          ensures ps[i].status == s
        {
          if i < |init| { assert ps[i] == init[i]; }
        }
      }
    }
  }

  /** With every progress in [0, 100], the sum lies in [0, 100 * N], so the
      average the handler divides out lies in [0, 100]. */
  lemma {:induction false} SumProgressBounds(ps: seq<Project>)
    ensures ProgressInRange(ps) ==> 0 <= SumProgress(ps) <= 100 * |ps|
  {
    if ps != [] && ProgressInRange(ps) {
      var init := ps[..|ps| - 1];
      assert ProgressInRange(init) by {
        forall i | 0 <= i < |init| ensures 0 <= init[i].progress <= 100 {
          assert init[i] == ps[i];
        }
      }
      SumProgressBounds(init);
    }
  }

  /** The body of `/api/stats`; the rounded float average is left out and the
      integer sum it is computed from is kept instead. */
  datatype Stats = Stats(totalProjects: nat, completed: nat, active: nat, progressSum: int)

  /** `get_stats`. An empty table makes the average a division by zero, which the
      framework answers with a 500. */
  function GetStats(ps: seq<Project>): (r: Reply<Stats>)
    ensures r.HttpError? <==> |ps| == 0
    ensures r.HttpError? ==> r.code == InternalError
    ensures r.Ok? ==> r.value.totalProjects == |ps|
    ensures r.Ok? ==> r.value.completed + r.value.active <= r.value.totalProjects
    ensures r.Ok? ==> r.value.completed == CountStatus(ps, "completed")
    ensures r.Ok? ==> r.value.active == CountStatus(ps, "active")
    ensures r.Ok? && ProgressInRange(ps) ==> 0 <= r.value.progressSum <= 100 * r.value.totalProjects
  {
    if |ps| == 0 then HttpError(InternalError, "Internal Server Error")
    else
      CountsDisjoint(ps, "completed", "active");
      SumProgressBounds(ps);
      Ok(Stats(|ps|, CountStatus(ps, "completed"), CountStatus(ps, "active"), SumProgress(ps)))
  }

  // ------------------------------------------------------------------ jokes

  /** `[joke for joke in jokes if joke['category'] == category]`, in table order. */
  function JokesInCategory(js: seq<Joke>, category: string): (r: seq<Joke>)
    ensures |r| <= |js|
    ensures forall i :: 0 <= i < |r| ==> r[i].category == category && r[i] in js
    ensures forall i :: 0 <= i < |js| && js[i].category == category ==> js[i] in r
  {
    if js == [] then []
    else
      var rest := JokesInCategory(js[1..], category);
      assert forall i :: 1 <= i < |js| ==> js[i] == js[1..][i - 1];
      if js[0].category == category then [js[0]] + rest else rest
  }

  /** `get_joke_by_category`: a 404 when no joke has the category, otherwise the
      candidate that `random.choice` picks, modelled by the index `pick`. */
  function GetJokeByCategory(js: seq<Joke>, category: string, pick: nat): (r: Reply<Joke>)
    ensures r.Ok? <==> exists i :: 0 <= i < |js| && js[i].category == category
    ensures r.HttpError? ==> r == NoJokes
    ensures r.Ok? ==> r.value.category == category && r.value in js
  {
    var candidates := JokesInCategory(js, category);
    if candidates == [] then NoJokes
    else Ok(candidates[pick % |candidates|])
  }

  /** `get_random_joke`: `random.choice` over the whole table, modelled by `pick`;
      an empty table makes it raise, which the framework answers with a 500. */
  function GetRandomJoke(js: seq<Joke>, pick: nat): (r: Reply<Joke>)
    ensures r.Ok? <==> |js| > 0
    ensures r.Ok? ==> r.value in js
    ensures r.HttpError? ==> r.code == InternalError
  {
    if js == [] then HttpError(InternalError, "Internal Server Error")
    else Ok(js[pick % |js|])
  }

  /** Every joke of the table can be drawn: the pick equal to its position
      returns it. */
  lemma EveryJokeCanBeDrawn(js: seq<Joke>, i: nat)
    requires i < |js|
    ensures GetRandomJoke(js, i) == Ok(js[i])
  {
  }

  /** The set of categories present in a joke table. */
  ghost function CategorySet(js: seq<Joke>): set<string>
  {
    set i | 0 <= i < |js| :: js[i].category
  }

  predicate NoDuplicates(xs: seq<string>)
  {
    forall i, j :: 0 <= i < j < |xs| ==> xs[i] != xs[j]
  }

  /** `list(set(joke['category'] for joke in jokes))`. The order of a Python set is
      not fixed; this model lists categories in order of first appearance. */
  function GetJokeCategories(js: seq<Joke>): (r: seq<string>)
    ensures NoDuplicates(r)
    ensures forall c :: c in r <==> exists i :: 0 <= i < |js| && js[i].category == c
    ensures |r| <= |js|
  {
    if js == [] then []
    else
      var init := js[..|js| - 1];
      var rest := GetJokeCategories(init);
      var c := js[|js| - 1].category;
      assert forall i :: 0 <= i < |init| ==> init[i] == js[i];
      if c in rest then rest else rest + [c]
  }

  /** The listed categories are exactly the categories present in the table. */
  lemma CategoriesMatchTable(js: seq<Joke>)
    ensures (set c | c in GetJokeCategories(js)) == CategorySet(js)
    ensures |GetJokeCategories(js)| == |CategorySet(js)|
  {
    var r := GetJokeCategories(js);
    var s := set c | c in r;
    assert s == CategorySet(js);
    DistinctCardinality(r);
  }

  /** A duplicate-free sequence has as many distinct elements as it has entries. */
  lemma {:induction false} DistinctCardinality(xs: seq<string>)
    requires NoDuplicates(xs)
    ensures |set c | c in xs| == |xs|
  {
    if xs != [] {
      var init := xs[..|xs| - 1];
      assert NoDuplicates(init);
      DistinctCardinality(init);
      var last := xs[|xs| - 1];
      assert last !in init;
      assert (set c | c in xs) == (set c | c in init) + {last};
    }
  }

  /** Every category the server lists has a joke, so asking for one never gets
      the 404. */
  lemma ListedCategoryHasJoke(js: seq<Joke>, c: string, pick: nat)
    requires c in GetJokeCategories(js)
    ensures GetJokeByCategory(js, c, pick).Ok?
    ensures GetJokeByCategory(js, c, pick).value.category == c
  {
  }
}

=== FILE: text.dfy ===
/** The string operations the browser script applies to categories and statuses.
    JavaScript's case mapping is modelled for ASCII letters only. */
module Text {

  /** `toUpperCase` on one character: ASCII lower-case letters move to upper case. */
  function UpperChar(c: char): char
  {
    if 'a' <= c <= 'z' then (c as int - 32) as char else c
  }

  /** `toLowerCase` on one character: ASCII upper-case letters move to lower case. */
  function LowerChar(c: char): char
  {
    if 'A' <= c <= 'Z' then (c as int + 32) as char else c
  }

  /** `toLowerCase` on a whole string, character by character. */
  function ToLower(s: string): (r: string)
    ensures |r| == |s|
    ensures forall i :: 0 <= i < |s| ==> r[i] == LowerChar(s[i])
  {
    seq(|s|, i requires 0 <= i < |s| => LowerChar(s[i]))
  }

  /** `s.charAt(0).toUpperCase() + s.slice(1)`: only the first character changes,
      and the empty string stays empty. */
  function Capitalize(s: string): (r: string)
    ensures |r| == |s|
    ensures |s| > 0 ==> r[0] == UpperChar(s[0])
    ensures forall i :: 1 <= i < |s| ==> r[i] == s[i]
  {
    if s == [] then [] else [UpperChar(s[0])] + s[1..]
  }

  /** Position of the first `c` in `s`, or `|s|` when `c` does not occur. */
  function IndexOf(s: string, c: char): (k: nat)
    ensures k <= |s|
    ensures forall i :: 0 <= i < k ==> s[i] != c
    ensures k < |s| ==> s[k] == c
    ensures k == |s| <==> c !in s
  {
    if s == [] then 0
    else if s[0] == c then 0
    else 1 + IndexOf(s[1..], c)
  }

  /** JavaScript `s.replace(from, to)` with a one-character string pattern: only the
      first occurrence of `from` is replaced. */
  function ReplaceFirst(s: string, from: char, to: char): (r: string)
    ensures |r| == |s|
    ensures forall i :: 0 <= i < |s| && i != IndexOf(s, from) ==> r[i] == s[i]
    ensures IndexOf(s, from) < |s| ==> r[IndexOf(s, from)] == to
  {
    if s == [] then []
    else if s[0] == from then [to] + s[1..]
    else [s[0]] + ReplaceFirst(s[1..], from, to)
  }
}

=== FILE: typing.dfy ===
/** `typeText`: a text is revealed into a page element one character per timer
    tick. Each tick that appends a character schedules the next tick and records
    that timer's handle; the tick after the last character schedules nothing and
    swaps the element's `typing` class for `typing-done`. */
module Typing {

  /** A timer handle as returned by `setTimeout`. */
  type Handle = nat

  /** The part of a page element the typing touches: its text and its two
      typing classes. */
  datatype Element = Element(text: string, typing: bool, typingDone: bool)

  /** What one call of the inner `type` function does to the element. */
  datatype Step =
    | Appended(elem: Element, timer: Handle)   // one more character, next tick scheduled
    | Finished(elem: Element)                  // nothing left: classes switched, promise resolved

  /** One call of `type` while `pos` characters of `text` are already typed; a
      follow-up tick gets the handle `handle`. */
  function TypeStep(e: Element, text: string, pos: nat, handle: Handle): (r: Step)
    ensures r.Appended? <==> pos < |text|
    ensures r.Appended? ==> r.elem == e.(text := e.text + [text[pos]]) && r.timer == handle
    ensures r.Finished? ==> r.elem.text == e.text && !r.elem.typing && r.elem.typingDone
  {
    if pos < |text| then Appended(e.(text := e.text + [text[pos]]), handle)
    else Finished(e.(typing := false, typingDone := true))
  }

  /** A typing run in progress: the element, how many characters are typed, the
      shared list of recorded timer handles, the next handle the browser hands out,
      and whether the run has resolved. */
  datatype Run = Run(elem: Element, pos: nat, timers: seq<Handle>, nextHandle: Handle, done: bool)

  /** `typeText` before its first tick: the element gains the `typing` class. */
  function Start(e: Element, timers: seq<Handle>, next: Handle): Run
  {
    Run(e.(typing := true), 0, timers, next, false)
  }

  /** One tick; a resolved run has no tick left and stays as it is. */
  function Advance(r: Run, text: string): (q: Run)
    ensures r.done ==> q == r
    ensures !r.done && r.pos < |text| ==>
              && q.elem.text == r.elem.text + [text[r.pos]] && q.pos == r.pos + 1 && !q.done
              && q.timers == r.timers + [r.nextHandle] && q.nextHandle == r.nextHandle + 1
    ensures !r.done && r.pos >= |text| ==>
              && q.done && q.elem.text == r.elem.text && q.elem.typingDone
              && q.timers == r.timers && q.nextHandle == r.nextHandle
  {
    if r.done then r
    else match TypeStep(r.elem, text, r.pos, r.nextHandle)
      case Appended(e, h) => Run(e, r.pos + 1, r.timers + [h], h + 1, false)
      case Finished(e) => r.(elem := e, done := true)
  }

  /** k ticks. */
  function AdvanceN(r: Run, text: string, k: nat): Run
    decreases k
  {
    if k == 0 then r else Advance(AdvanceN(r, text, k - 1), text)
  }

  /** The k consecutive handles starting at `next`. */
  function Handles(next: Handle, k: nat): (hs: seq<Handle>)
    ensures |hs| == k
    ensures forall i :: 0 <= i < k ==> hs[i] == next + i
  {
    seq(k, i requires 0 <= i < k => next + i)
  }

  /** After k <= |text| ticks the element shows its old text followed by exactly the
      first k characters, one new handle has been recorded per tick, and the run is
      still typing. */
  lemma {:induction false} TypedPrefix(e: Element, text: string, timers: seq<Handle>, next: Handle, k: nat)
    requires k <= |text|
    ensures var r := AdvanceN(Start(e, timers, next), text, k);
            && r.elem.text == e.text + text[..k]
            && r.pos == k
            && !r.done && r.elem.typing && r.elem.typingDone == e.typingDone
            && r.timers == timers + Handles(next, k)
            && r.nextHandle == next + k
  {
    if k > 0 {
      TypedPrefix(e, text, timers, next, k - 1);
      assert text[..k] == text[..k - 1] + [text[k - 1]];
      assert Handles(next, k) == Handles(next, k - 1) + [next + k - 1];
    }
  }

  /** The tick after the last character records no handle, resolves the run and
      marks the element `typing-done`; so the run ends after exactly |text|
      appends, with the whole text shown. */
  lemma TypingFinishes(e: Element, text: string, timers: seq<Handle>, next: Handle)
    ensures var r := AdvanceN(Start(e, timers, next), text, |text| + 1);
            && r.done
            && r.elem == Element(e.text + text, false, true)
            && r.timers == timers + Handles(next, |text|)
            && r.nextHandle == next + |text|
  {
    TypedPrefix(e, text, timers, next, |text|);
    assert text[..|text|] == text;
  }
}

=== FILE: wrappers.dfy ===
/** Optional values, used wherever the source may find nothing (a missing project,
    a failed fetch, an absent body field, an absent DOM attribute). */
module Wrappers {

  datatype Option<+T> = None | Some(value: T)
}
